=== FILE: README.md ===
# Provider detection, modelled in Dafny

This project models the provider detection of CryptoAnalysis (`ProviderDetection.java`). The
analysis scans a Soot/Jimple program for a call `X.getInstance(algorithm, provider)`. It works
out which JCA provider the second argument names and uses that to pick a CrySL rule directory.
The only provider it can name is BouncyCastle (`"BouncyCastle-JCA"`). Every other outcome is
`null`.

The model is split into these modules:

- `Options`: `Option<T>`, which stands for a Java reference that may be `null`.
- `TextMatch`: the three `String` operations that need a definition of their own (`equals` is
  Dafny's `==`).
  - `contains`.
  - `matches`, for patterns whose only metacharacter is `.`.
  - `replaceAll` of a single character.
- `Jimple`: the program as a closed statement datatype. The variants are `Assign`, `If`,
  `TableSwitch`, `LookupSwitch` and `OtherStmt`.
  - A `Value` carries its `toString()` text and the `toString()` of its type.
  - The program is given as sequences: application classes, then methods (with an optional
    active body), then units.
  - The Soot/Boomerang machinery is an `Oracle` value. It has two functions: the ordered
    predecessors of a statement, and the finite set of allocation sites a backward query reaches.
- `ScanOrder`: the three nested loops of `doAnalysis`, flattened into one sequence of visited
  sites. The lemmas prove three things about that sequence:
  - it holds exactly the units of active bodies;
  - each unit appears once;
  - the units appear in class, method, unit order.
- `ProviderDetection`: the code. Each Java method with a loop is modelled by Dafny methods with
  the same loops, early returns and constants, with two differences of form:
  - the three nested loops of `doAnalysis` are split into `DoAnalysis` (classes), `ScanMethods`
    (methods), `ScanBody` (units) and `VisitUnit` (the branch cascade for one unit);
  - in `getProviderWhenTypeProvider`, the loop over predecessors is the method
    `PoolAllocationSites`, and the loop over the one-entry map is a choice of its single element.

  `chooseRules` has no loop, and its return inside the `if` (line 329) gives the same `rules` as its final return (line 331), so it is a Dafny function. `getProviderType` only reads the value's type, so it is inlined as `.typeName`. Each method is specified against a reference definition:
  - `Step`: what one visited unit decides;
  - `FirstDecision`: the first decision along a sequence of units;
  - `Analysis`: a whole run.

  The detector's two fields (`provider`, `rulesDirectory`) are a `Detector` record.
- `DetectionProperties`: lemmas about these definitions.
- `Scenarios`: whole runs on small concrete programs.

## Behaviour the model follows from the code

The model follows what the code does, including where that differs from a plain reading of its
purpose:

- The code's scan is not a plain "first qualifying call site wins" rule. Two kinds of call site
  return at once:
  - one whose provider type is `java.security.Provider`;
  - one whose provider type is `java.lang.String` and that no branch mentions.

  In both cases the return happens even when the result is `null`. Two kinds of call site are
  skipped instead, and the scan goes on:
  - a string-typed site that an `if` or table switch mentions;
  - a site of any other provider type.

  Neither skipped kind yields `null` at that point.
- The literal resolver does not stop at the first assignment to the provider value. It returns
  at the first assignment whose right side is a known code. Assignments with other right sides
  are passed over.
- In the code, a provider passed as a string constant (`getInstance("AES", "BC")`) is never
  resolved, because Jimple never assigns to a constant. The model does not enforce this: its
  `Value` does not tell constants from locals, so a body that assigns to a constant's rendering
  would resolve it.
- "Two arguments" means the callee's declared parameter count. Jimple gives a static invoke
  exactly as many arguments as the callee declares parameters, so the model reads the count off
  the argument list.

Other details kept from the code:

- `matches("java.security.Provider")` is a regular-expression match, so `.` matches any
  character (`Scenarios.ProviderPatternIsARegex`).
- The guard is a textual `contains` test (`DetectionProperties.GuardIsTextual`). Lookup switches
  are never examined.
- When nothing decides, `doAnalysis` returns the `provider` field it already holds. That is
  `null` on a fresh instance, but an older result on a reused one.

## Model

| member | source | states |
|---|---|---|
| ProviderDetection.DoAnalysis | CryptoAnalysis/src/main/java/crypto/providerdetection/ProviderDetection.java:82-134 | The nested scan returns exactly what the flattened reference run returns: the decision of the first deciding unit in class, method, unit order, or the provider already held when no unit decides. It records the returned value and never touches the rule directory. |
| ProviderDetection.ScanMethods | CryptoAnalysis/src/main/java/crypto/providerdetection/ProviderDetection.java:85-130 | The method loop skips methods without an active body and yields the first decision among the units of the class's methods. |
| ProviderDetection.ScanBody | CryptoAnalysis/src/main/java/crypto/providerdetection/ProviderDetection.java:88-128 | The unit loop stops at the first unit that decides and yields its decision; otherwise it yields none. |
| ProviderDetection.VisitUnit | CryptoAnalysis/src/main/java/crypto/providerdetection/ProviderDetection.java:89-125 | The Java branch cascade for one unit matches the reference one-unit decision: return on a Provider-typed argument, and on an unguarded String-typed one; go on otherwise. |
| ProviderDetection.CheckIfStmt | CryptoAnalysis/src/main/java/crypto/providerdetection/ProviderDetection.java:267-281 | True exactly when some `if` statement of the body has text containing the provider value's text. |
| ProviderDetection.CheckSwitchStmt | CryptoAnalysis/src/main/java/crypto/providerdetection/ProviderDetection.java:296-309 | True exactly when some table switch of the body has text containing the provider value's text. |
| ProviderDetection.ProviderWhenTypeString | CryptoAnalysis/src/main/java/crypto/providerdetection/ProviderDetection.java:236-251 | BouncyCastle exactly when some assignment to the provider value has a right side that, with quotes removed, is BC, BCPQC or BCJSSE; `null` exactly when none has. |
| ProviderDetection.PoolAllocationSites | CryptoAnalysis/src/main/java/crypto/providerdetection/ProviderDetection.java:185-193 | A site is in the pooled map exactly when the backward query from some predecessor reports it. The order and repetition of predecessors do not matter, and duplicates collapse. |
| ProviderDetection.ProviderWhenTypeProvider | CryptoAnalysis/src/main/java/crypto/providerdetection/ProviderDetection.java:165-224 | The object path is the site decision applied to the pooled sites of all predecessors of the call site. |
| ProviderDetection.DecideFromSites | CryptoAnalysis/src/main/java/crypto/providerdetection/ProviderDetection.java:199-223 | BouncyCastle exactly when the pool is a single site whose type name contains "BouncyCastle". `null` for no site, for several sites, or for one unrecognised site. |
| ProviderDetection.ChooseRules | CryptoAnalysis/src/main/java/crypto/providerdetection/ProviderDetection.java:322-332 | Rules come back exactly when the path exists (`File.exists`, which also holds for a regular file); they are the loader's rules for that path, and the path is recorded. Otherwise it returns `null` and the detector is unchanged. The provider field is never touched. |
| ProviderDetection.FirstDecisionAppend | CryptoAnalysis/src/main/java/crypto/providerdetection/ProviderDetection.java:84-134 | Scanning two stretches of units in a row reaches the second only if the first decides nothing. |
| ScanOrder.ScanOrderSoundAndOrdered | CryptoAnalysis/src/main/java/crypto/providerdetection/ProviderDetection.java:84-88 | Every visited site is a real unit of an active body of an application class. Sites come in strictly increasing (class, method, unit) order, so no unit is visited twice. |
| ScanOrder.ScanOrderComplete | CryptoAnalysis/src/main/java/crypto/providerdetection/ProviderDetection.java:84-88 | Every unit of every active body of every application class is visited. |
| DetectionProperties.QualifyingCallSite | CryptoAnalysis/src/main/java/crypto/providerdetection/ProviderDetection.java:89-106 | A unit is a call site exactly when it assigns a static invocation named exactly `getInstance` with two parameters; the provider is the second argument. |
| DetectionProperties.StepDecidesExactly | CryptoAnalysis/src/main/java/crypto/providerdetection/ProviderDetection.java:104-124 | A unit decides exactly when it is a call site whose provider is Provider-typed, or String-typed and unguarded. Its decision is `null` or BouncyCastle. |
| DetectionProperties.UndecidedIffNoStep | CryptoAnalysis/src/main/java/crypto/providerdetection/ProviderDetection.java:84-133 | A scan reaches its end exactly when no unit along it decides. |
| DetectionProperties.FirstStepDecides | CryptoAnalysis/src/main/java/crypto/providerdetection/ProviderDetection.java:109-123 | The first deciding unit settles the scan, whatever follows it. |
| DetectionProperties.SkippedSiteTransparent | CryptoAnalysis/src/main/java/crypto/providerdetection/ProviderDetection.java:114-124 | A unit that does not decide can be removed without changing the outcome. |
| DetectionProperties.ObjectPathStopsScan | CryptoAnalysis/src/main/java/crypto/providerdetection/ProviderDetection.java:109-112 | The first Provider-typed call site ends the scan with the object-path result, even when that result is `null`. |
| DetectionProperties.StringPathStopsOnlyUnguarded | CryptoAnalysis/src/main/java/crypto/providerdetection/ProviderDetection.java:114-124 | An unguarded String-typed call site ends the scan with the literal result, even when that is `null`. A guarded one is skipped, and the outcome is that of the units after it. |
| DetectionProperties.OtherTypeSkipped | CryptoAnalysis/src/main/java/crypto/providerdetection/ProviderDetection.java:109-125 | A call site whose provider is neither Provider- nor String-typed is skipped. |
| DetectionProperties.TypePatternsDisjoint | CryptoAnalysis/src/main/java/crypto/providerdetection/ProviderDetection.java:109-114 | No type name matches both type patterns. |
| DetectionProperties.FirstDecisionOutcome | CryptoAnalysis/src/main/java/crypto/providerdetection/ProviderDetection.java:199-251 | Every decision along any scan is `null` or "BouncyCastle-JCA". |
| DetectionProperties.AnalysisOutcome | CryptoAnalysis/src/main/java/crypto/providerdetection/ProviderDetection.java:82-134 | Starting from a detector holding `null` or BouncyCastle, a run returns and records only `null` or BouncyCastle, and it keeps the rule directory. |
| DetectionProperties.UndecidedRunReturnsHeldProvider | CryptoAnalysis/src/main/java/crypto/providerdetection/ProviderDetection.java:133 | When no unit decides, the detector is unchanged and its held provider is returned; that is `null` for a fresh detector. |
| DetectionProperties.NoCallSiteIsNull | CryptoAnalysis/src/main/java/crypto/providerdetection/ProviderDetection.java:84-133 | A program with no qualifying call site yields `null` on a fresh detector and leaves it fresh. |
| DetectionProperties.RunDecidedByFirstStep | CryptoAnalysis/src/main/java/crypto/providerdetection/ProviderDetection.java:84-134 | If the first deciding unit of the scan order is at position k, the run returns and records that unit's decision. |
| DetectionProperties.LookupSwitchNotChecked | CryptoAnalysis/src/main/java/crypto/providerdetection/ProviderDetection.java:296-309 | Adding a lookup switch, whatever its text, changes neither guard check. |
| DetectionProperties.GuardIsTextual | CryptoAnalysis/src/main/java/crypto/providerdetection/ProviderDetection.java:267-281 | The guard is a substring test: `if r10 == 0` counts as mentioning `r1`. |
| DetectionProperties.UnknownLiteralSkipped | CryptoAnalysis/src/main/java/crypto/providerdetection/ProviderDetection.java:236-251 | An assignment of an unknown right side to the provider value can be removed without changing the literal result. |
| DetectionProperties.QuotedCodeResolves | CryptoAnalysis/src/main/java/crypto/providerdetection/ProviderDetection.java:241-245 | Each known code resolves both quoted and bare. |
| DetectionProperties.ChooseRulesIdempotent | CryptoAnalysis/src/main/java/crypto/providerdetection/ProviderDetection.java:322-332 | Choosing the same directory twice gives the same detector and rules as choosing it once. |
| DetectionProperties.ChooseRulesIndependentOfAnalysis | CryptoAnalysis/src/main/java/crypto/providerdetection/ProviderDetection.java:322-332 | `chooseRules` and `doAnalysis` commute: both orders give the same final detector, provider result and rules. |
| Scenarios.OneMethodDecided | CryptoAnalysis/src/main/java/crypto/providerdetection/ProviderDetection.java:84-128 | In a program of one class with one method, if unit k decides r and no unit before it decides, the run returns r and records it. |
| Scenarios.OneMethodUndecided | CryptoAnalysis/src/main/java/crypto/providerdetection/ProviderDetection.java:84-133 | In a program of one class with one method where no unit decides, a fresh detector returns `null` and stays fresh. |
| Scenarios.LiteralThenCall | CryptoAnalysis/src/main/java/crypto/providerdetection/ProviderDetection.java:114-123 | Take a body that assigns a literal to `r1` and passes `r1` to `getInstance`. Its run returns BouncyCastle exactly when the unquoted literal is a known code, and `null` otherwise. |
| Scenarios.UnguardedBcDetected | CryptoAnalysis/src/main/java/crypto/providerdetection/ProviderDetection.java:236-251 | An unguarded `r1 = "BC"` followed by the call is detected as BouncyCastle and recorded. |
| Scenarios.UnknownCodeIsNull | CryptoAnalysis/src/main/java/crypto/providerdetection/ProviderDetection.java:236-251 | The literal `"XX"` gives `null`. |
| Scenarios.GuardedLiteralIgnored | CryptoAnalysis/src/main/java/crypto/providerdetection/ProviderDetection.java:114-124 | `r1 = "BC"` under `if r1 == null` is not resolved: the site is skipped and a fresh detector returns `null`. |
| Scenarios.ObjectPathDetected | CryptoAnalysis/src/main/java/crypto/providerdetection/ProviderDetection.java:109-112 | A Provider-typed call site whose pooled allocation sites are a single site with a BouncyCastle type name makes the run return and record BouncyCastle. |
| Scenarios.FirstCallSiteWins | CryptoAnalysis/src/main/java/crypto/providerdetection/ProviderDetection.java:109-112 | A first, unresolvable Provider-typed call yields `null`. A later, resolvable String call is never reached. |
| Scenarios.ProviderPatternIsARegex | CryptoAnalysis/src/main/java/crypto/providerdetection/ProviderDetection.java:109 | A type named `java$security$Provider` also takes the object path. |
| TextMatch.MatchesWithoutDotIsEquality | CryptoAnalysis/src/main/java/crypto/providerdetection/ProviderDetection.java:104 | Matching a pattern without `.` (such as `getInstance`) is string equality. |
| TextMatch.RemoveAll | CryptoAnalysis/src/main/java/crypto/providerdetection/ProviderDetection.java:241 | Removing quotes leaves no quote, never lengthens the text, and leaves quote-free text unchanged. Which characters are kept, and in what order, is stated by `RemoveAllOne`, `RemoveAllDistributes` and `RemoveAllKeepsOthersInOrder`. |
| TextMatch.RemoveAllOne | CryptoAnalysis/src/main/java/crypto/providerdetection/ProviderDetection.java:241 | Removing quotes from the empty string gives the empty string; from one character, it drops a quote and keeps any other character. |
| TextMatch.RemoveAllKeepsOthersInOrder | CryptoAnalysis/src/main/java/crypto/providerdetection/ProviderDetection.java:241 | Quote removal is determined character by character from the front, every non-quote character of the input survives, and the result is exactly as long as the input minus its number of quotes. |
| TextMatch.RemoveAllDistributes | CryptoAnalysis/src/main/java/crypto/providerdetection/ProviderDetection.java:241 | Quote removal works piece by piece over a concatenation. |

## Left out

- Logging: the `LOGGER` diagnostics are side effects only and never change a returned value.
- `declaringClassName` (lines 98-100, built with `substring` and `lastIndexOf`) is computed but never used.
- The Boomerang solver's construction and options (lines 169-184) are not modelled. A query's
  answer is the `Oracle`'s `allocationSites` function, and `getPredsOf` is its `predsOf`.
- The allocation-site map keeps its keys only. Its values (Boomerang contexts) are never read.
- The Soot `Scene`, the `Body` enumeration and Jimple's `toString` renderings are not modelled.
  They are given sequences and strings.
- Path existence (`File.exists`) and `CrySLRulesetSelector.makeFromPath` are given functions.
- The getters and `setRulesDirectory` (lines 58-68) are not modelled. They read or write a field
  of the `Detector` record and nothing more.
- Java exceptions are not modelled. These are a `null` rules path, and a predecessor that is not
  a `Stmt` in the cast at line 188.
- `Value` equality is equality of both renderings. Soot compares locals by identity, and their
  names are unique within a body.

=== FILE: detection_properties.dfy ===
/** Properties of the provider detection: how one unit decides, why the first deciding unit
    settles the run, which outcomes are possible, and how `chooseRules` and `doAnalysis`
    share the detector's state. */
module DetectionProperties {
  import opened Options
  import opened TextMatch
  import opened Jimple
  import opened ScanOrder
  import opened ProviderDetection

  /** No unit of the sequence decides. */
  ghost predicate Undecided(o: Oracle, sites: seq<Site>) {
    forall j | 0 <= j < |sites| :: Step(o, sites[j]) == Continue
  }

  // ---------------------------------------------------------------------------------------
  // One unit

  /** A unit decides exactly when it is a qualifying call whose provider argument is of type
      `java.security.Provider`, or of type `java.lang.String` with no `if` or table switch of
      the body mentioning it. Every decision is `null` or the BouncyCastle identifier. */
  lemma StepDecidesExactly(o: Oracle, site: Site)
    ensures Step(o, site).Return? <==>
      && ProviderArgument(site.stmt).Some?
      && var v := ProviderArgument(site.stmt).value;
         || MatchesDotPattern(v.typeName, ProviderTypePattern)
         || (&& MatchesDotPattern(v.typeName, StringTypePattern)
             && !IfGuarded(v, site.body.units) && !SwitchGuarded(v, site.body.units))
    ensures Step(o, site).Return? ==> IsProviderOutcome(Step(o, site).provider)
  {
  }

  /** The qualifying shape: an assignment of a static invocation of `getInstance` with two
      arguments; anything else is passed over. */
  lemma QualifyingCallSite(s: Stmt)
    ensures ProviderArgument(s).Some? <==>
      s.Assign? && s.rhs.StaticInvoke? && s.rhs.methodName == "getInstance" && |s.rhs.args| == 2
    ensures ProviderArgument(s).Some? ==> ProviderArgument(s).value == s.rhs.args[1]
  {
    if s.Assign? && s.rhs.StaticInvoke? {
      assert '.' !in GetInstancePattern;
      MatchesWithoutDotIsEquality(s.rhs.methodName, GetInstancePattern);
    }
  }

  // ---------------------------------------------------------------------------------------
  // Guards and literals

  /** Inserting a statement that does not satisfy a property does not change whether some
      statement of a body satisfies it. */
  lemma ExistsUnaffectedByInsert(P: Stmt -> bool, a: Body, x: Stmt, b: Body)
    requires !P(x)
    ensures (exists i | 0 <= i < |a + [x] + b| :: P((a + [x] + b)[i])) <==>
            (exists i | 0 <= i < |a + b| :: P((a + b)[i]))
  {
    var with := a + [x] + b;
    var without := a + b;
    if i :| 0 <= i < |with| && P(with[i]) {
      if i < |a| {
        assert without[i] == with[i];
      } else {
        assert i > |a| && without[i - 1] == with[i];
      }
    }
    if i :| 0 <= i < |without| && P(without[i]) {
      if i < |a| {
        assert with[i] == without[i];
      } else {
        assert with[i + 1] == without[i];
      }
    }
  }

  /** Lookup switches are not examined by the guard: adding one, whatever it mentions,
      changes neither check. */
  lemma LookupSwitchNotChecked(v: Value, a: Body, text: string, b: Body)
    ensures IfGuarded(v, a + [LookupSwitch(text)] + b) == IfGuarded(v, a + b)
    ensures SwitchGuarded(v, a + [LookupSwitch(text)] + b) == SwitchGuarded(v, a + b)
  {
    ExistsUnaffectedByInsert((s: Stmt) => s.If? && Contains(s.text, v.text), a, LookupSwitch(text), b);
    ExistsUnaffectedByInsert((s: Stmt) => s.TableSwitch? && Contains(s.text, v.text), a, LookupSwitch(text), b);
  }

  /** The guard is a textual test: a branch on a different local whose name merely starts
      with the provider's name (`r10` for `r1`) counts as mentioning it. */
  lemma GuardIsTextual()
    ensures IfGuarded(Value("r1", "java.lang.String"), [If("if r10 == 0 goto label1")])
  {
    var text := "if r10 == 0 goto label1";
    assert text[3..5] == "r1";
    assert OccursAt(text, "r1", 3);
    assert [If(text)][0].If? && Contains([If(text)][0].text, "r1");
  }

  /** Assignments to the provider value of anything but a known code are passed over, not
      taken as the answer: removing one changes nothing. */
  lemma UnknownLiteralSkipped(v: Value, a: Body, rhs: Expr, b: Body)
    requires RemoveAll(rhs.text, '"') !in KnownCodes
    ensures ResolvesLiteral(v, a + [Assign(v, rhs)] + b) == ResolvesLiteral(v, a + b)
  {
    ExistsUnaffectedByInsert((s: Stmt) => IsKnownLiteralAssign(s, v), a, Assign(v, rhs), b);
  }

  /** Quotes around a code do not matter: `"BC"` and `BC` both resolve. */
  lemma QuotedCodeResolves(v: Value, code: string)
    requires code in KnownCodes
    ensures ResolvesLiteral(v, [Assign(v, OtherExpr("\"" + code + "\""))])
    ensures ResolvesLiteral(v, [Assign(v, OtherExpr(code))])
  {
    var quote := "\"";
    assert '"' !in code;
    assert RemoveAll(quote, '"') == [];
    RemoveAllDistributes(quote, code, '"');
    RemoveAllDistributes(quote + code, quote, '"');
    assert RemoveAll(quote + code + quote, '"') == code;
    var quoted := [Assign(v, OtherExpr(quote + code + quote))];
    var bare := [Assign(v, OtherExpr(code))];
    assert IsKnownLiteralAssign(quoted[0], v);
    assert IsKnownLiteralAssign(bare[0], v);
  }

  // ---------------------------------------------------------------------------------------
  // First decision along the scan

  /** Nothing decides along a sequence exactly when no unit of it decides. */
  lemma {:induction false} UndecidedIffNoStep(o: Oracle, sites: seq<Site>)
    ensures FirstDecision(o, sites) == Continue <==> Undecided(o, sites)
  {
    if |sites| > 0 {
      UndecidedIffNoStep(o, sites[1..]);
      if Step(o, sites[0]) == Continue && Undecided(o, sites[1..]) {
        forall j | 0 <= j < |sites|
          ensures Step(o, sites[j]) == Continue
        {
          if j > 0 {
            assert sites[j] == sites[1..][j - 1];
          }
        }
      }
    }
  }

  /** The first unit that decides settles the scan; the units after it are never looked at. */
  lemma FirstStepDecides(o: Oracle, before: seq<Site>, site: Site, after: seq<Site>)
    requires Undecided(o, before) && Step(o, site).Return?
    ensures FirstDecision(o, before + [site] + after) == Step(o, site)
  {
    UndecidedIffNoStep(o, before);
    FirstDecisionAppend(o, before, [site] + after);
    assert before + [site] + after == before + ([site] + after);
    assert ([site] + after)[0] == site;
  }

  /** A unit that does not decide is as if it were not there. */
  lemma SkippedSiteTransparent(o: Oracle, before: seq<Site>, site: Site, after: seq<Site>)
    requires Step(o, site) == Continue
    ensures FirstDecision(o, before + [site] + after) == FirstDecision(o, before + after)
  {
    FirstDecisionAppend(o, before, [site] + after);
    FirstDecisionAppend(o, before, after);
    assert before + [site] + after == before + ([site] + after);
    assert ([site] + after)[1..] == after;
  }

  /** The object path always stops the scan, even when it resolves to `null`. */
  lemma ObjectPathStopsScan(o: Oracle, before: seq<Site>, site: Site, after: seq<Site>, v: Value)
    requires Undecided(o, before)
    requires ProviderArgument(site.stmt) == Some(v)
    requires MatchesDotPattern(v.typeName, ProviderTypePattern)
    ensures FirstDecision(o, before + [site] + after) == Return(DecideFromSites(PooledSites(o, site.loc, v)))
  {
    FirstStepDecides(o, before, site, after);
  }

  /** The two type patterns never match the same type name, so the order of the tests does
      not matter. */
  lemma TypePatternsDisjoint(t: string)
    ensures !(MatchesDotPattern(t, ProviderTypePattern) && MatchesDotPattern(t, StringTypePattern))
  {
  }

  /** The string path stops the scan when no branch mentions the provider value, even when
      the literal is unknown; when a branch does, the unit is skipped and the scan goes on. */
  lemma StringPathStopsOnlyUnguarded(o: Oracle, before: seq<Site>, site: Site, after: seq<Site>, v: Value)
    requires Undecided(o, before)
    requires ProviderArgument(site.stmt) == Some(v)
    requires MatchesDotPattern(v.typeName, StringTypePattern)
    ensures !IfGuarded(v, site.body.units) && !SwitchGuarded(v, site.body.units) ==>
      FirstDecision(o, before + [site] + after) ==
        Return(if ResolvesLiteral(v, site.body.units) then Some(BouncyCastleJca) else None)
    ensures IfGuarded(v, site.body.units) || SwitchGuarded(v, site.body.units) ==>
      FirstDecision(o, before + [site] + after) == FirstDecision(o, after)
  {
    TypePatternsDisjoint(v.typeName);
    if !IfGuarded(v, site.body.units) && !SwitchGuarded(v, site.body.units) {
      FirstStepDecides(o, before, site, after);
    } else {
      SkippedSiteTransparent(o, before, site, after);
      UndecidedIffNoStep(o, before);
      FirstDecisionAppend(o, before, after);
    }
  }

  /** A provider argument of any other type is skipped. */
  lemma OtherTypeSkipped(o: Oracle, before: seq<Site>, site: Site, after: seq<Site>, v: Value)
    requires ProviderArgument(site.stmt) == Some(v)
    requires !MatchesDotPattern(v.typeName, ProviderTypePattern)
    requires !MatchesDotPattern(v.typeName, StringTypePattern)
    ensures FirstDecision(o, before + [site] + after) == FirstDecision(o, before + after)
  {
    SkippedSiteTransparent(o, before, site, after);
  }

  /** Every decision along a scan is `null` or the BouncyCastle identifier. */
  lemma {:induction false} FirstDecisionOutcome(o: Oracle, sites: seq<Site>)
    ensures FirstDecision(o, sites).Return? ==> IsProviderOutcome(FirstDecision(o, sites).provider)
  {
    if |sites| > 0 {
      StepDecidesExactly(o, sites[0]);
      FirstDecisionOutcome(o, sites[1..]);
    }
  }

  // ---------------------------------------------------------------------------------------
  // Whole runs

  /** The only non-null provider a run can return or record is "BouncyCastle-JCA", provided
      the detector did not already hold something else. */
  lemma AnalysisOutcome(d: Detector, p: Program, o: Oracle)
    requires IsProviderOutcome(d.provider)
    ensures IsProviderOutcome(Analysis(d, p, o).1)
    ensures IsProviderOutcome(Analysis(d, p, o).0.provider)
    ensures Analysis(d, p, o).0.rulesDirectory == d.rulesDirectory
  {
    FirstDecisionOutcome(o, VisitOrder(p));
  }

  /** When no unit decides, the run leaves the detector alone and returns the provider it
      already held; on a fresh detector that is `null`. */
  lemma UndecidedRunReturnsHeldProvider(d: Detector, p: Program, o: Oracle)
    requires Undecided(o, VisitOrder(p))
    ensures Analysis(d, p, o) == (d, d.provider)
    ensures Analysis(Fresh, p, o).1 == None
  {
    UndecidedIffNoStep(o, VisitOrder(p));
  }

  /** A program without any qualifying call site yields `null` on a fresh detector. */
  lemma NoCallSiteIsNull(p: Program, o: Oracle)
    requires forall s | s in VisitOrder(p) :: ProviderArgument(s.stmt) == None
    ensures Analysis(Fresh, p, o) == (Fresh, None)
  {
    UndecidedIffNoStep(o, VisitOrder(p));
  }

  /** The run is decided by the first deciding unit of the scan order, wherever it is. */
  lemma RunDecidedByFirstStep(d: Detector, p: Program, o: Oracle, k: nat)
    requires k < |VisitOrder(p)| && Step(o, VisitOrder(p)[k]).Return?
    requires Undecided(o, VisitOrder(p)[..k])
    ensures Analysis(d, p, o).1 == Step(o, VisitOrder(p)[k]).provider
    ensures Analysis(d, p, o).0 == d.(provider := Step(o, VisitOrder(p)[k]).provider)
  {
    var s := VisitOrder(p);
    assert s == s[..k] + [s[k]] + s[k + 1..];
    FirstStepDecides(o, s[..k], s[k], s[k + 1..]);
  }

  // ---------------------------------------------------------------------------------------
  // chooseRules

  /** Choosing the same directory twice changes nothing more than choosing it once. */
  lemma ChooseRulesIdempotent(d: Detector, path: string, pathExists: string -> bool, makeFromPath: string -> seq<Rule>)
    ensures var once := ChooseRules(d, path, pathExists, makeFromPath);
      ChooseRules(once.0, path, pathExists, makeFromPath) == once
  {
  }

  /** `chooseRules` touches only the rule directory and `doAnalysis` only the provider, so
      running them in either order gives the same detector and the same results. */
  lemma ChooseRulesIndependentOfAnalysis(d: Detector, p: Program, o: Oracle, path: string,
                                         pathExists: string -> bool, makeFromPath: string -> seq<Rule>)
    ensures Analysis(ChooseRules(d, path, pathExists, makeFromPath).0, p, o).0
      == ChooseRules(Analysis(d, p, o).0, path, pathExists, makeFromPath).0
    ensures Analysis(ChooseRules(d, path, pathExists, makeFromPath).0, p, o).1 == Analysis(d, p, o).1
    ensures ChooseRules(Analysis(d, p, o).0, path, pathExists, makeFromPath).1
      == ChooseRules(d, path, pathExists, makeFromPath).1
  {
  }
}

=== FILE: jimple.dfy ===
/** The slice of the Soot/Jimple program representation that the provider detection reads,
    as a closed set of immutable datatypes. Renderings (`toString()` of statements, values and
    types) are carried as given strings; the Scene's class order, each class's method order and
    each body's unit order are the order of the sequences. */
module Jimple {
  import opened Options

  /** A Jimple value (a local or a constant), seen through its `toString()` text and the
      `toString()` of its static type. Values compare equal when both renderings agree, which is
      how locals of one body (whose names are unique) and constants (compared by content)
      compare. */
  datatype Value = Value(text: string, typeName: string)

  /** The right-hand side of an assignment: a static invocation (callee's simple name and the
      argument values; Jimple gives a call exactly as many arguments as the callee declares
      parameters) or any other expression. Both carry their `toString()` text. */
  datatype Expr =
    | StaticInvoke(methodName: string, args: seq<Value>, text: string)
    | OtherExpr(text: string)

  /** The unit kinds the detection distinguishes. Branches carry their `toString()` text. */
  datatype Stmt =
    | Assign(lhs: Value, rhs: Expr)
    | If(text: string)
    | TableSwitch(text: string)
    | LookupSwitch(text: string)
    | OtherStmt

  /** The units of an active body, in order. */
  type Body = seq<Stmt>

  /** A method; `activeBody` is `None` when `hasActiveBody()` is false. */
  datatype SootMethod = SootMethod(name: string, activeBody: Option<Body>)

  datatype SootClass = SootClass(name: string, methods: seq<SootMethod>)

  /** The Scene's application classes, in the order the Scene returns them. */
  type Program = seq<SootClass>

  /** A method by position: index of its class in the program, index in that class. */
  datatype MethodRef = MethodRef(cls: nat, index: nat)

  /** A unit by position: its method and its index in that method's body. This is the
      statement identity handed to the control-flow oracle. */
  datatype Location = Location(inMethod: MethodRef, unit: nat)

  /** An allocation site reported by a backward query (Boomerang's `ForwardQuery` key):
      the allocating statement and the allocated value, whose type names the provider class. */
  datatype AllocationSite = AllocationSite(stmt: Location, value: Value)

  /** A backward query: seed the value at a predecessor statement, in the given method. */
  datatype Query = BackwardQuery(pred: Location, inMethod: MethodRef, value: Value)

  /** The control-flow and pointer-analysis machinery, given from outside: the ordered
      predecessors of a statement and the allocation sites a backward query reaches. */
  datatype Oracle = Oracle(
    predsOf: Location -> seq<Location>,
    allocationSites: Query -> set<AllocationSite>)

  /** A body wrapped in a datatype; the wrapper exists only to keep proof obligations about
      sites cheap (a sequence field directly in `Site` makes them expensive). */
  datatype Units = Units(units: Body)

  /** One unit as the scanner visits it: where it is, what it is, and the body around it. */
  datatype Site = Site(loc: Location, stmt: Stmt, body: Units)
}

=== FILE: options.dfy ===
/** The optional value used wherever the analysed code returns a Java reference that may be null. */
module Options {

  /** `None` stands for Java's `null`; `Some(v)` for a non-null reference to `v`. */
  datatype Option<+T> = None | Some(value: T)
}

=== FILE: provider_detection.dfy ===
/** The provider detection of `ProviderDetection.java`: find the first `getInstance` call
    whose provider argument can be resolved, resolve it along the object path (pooled
    allocation sites) or the string path (ambiguity guard, then a literal table), and select a
    rule directory.

    The methods keep the Java code's loops and early returns, with the nested loops of
    `doAnalysis` split into one method per level and the loop over the one-entry allocation
    map of `getProviderWhenTypeProvider` a choice of its element; each is specified against a
    reference definition: `Step` is the decision for one visited unit, `FirstDecision` the
    first decision along a sequence of units, and `Analysis` the whole run over the scan order
    of `ScanOrder`. */
module ProviderDetection {
  import opened Options
  import opened TextMatch
  import opened Jimple
  import opened ScanOrder

  /** The vendor marker looked for in the type name of an allocated provider. */
  const BouncyCastle := "BouncyCastle"

  /** The only provider identifier the detection ever produces. */
  const BouncyCastleJca := "BouncyCastle-JCA"

  /** The regular expressions the callee name and the provider type are matched against. */
  const GetInstancePattern := "getInstance"
  const ProviderTypePattern := "java.security.Provider"
  const StringTypePattern := "java.lang.String"

  /** The provider codes the literal resolver recognises, once quotes are removed. */
  const KnownCodes: set<string> := {"BC", "BCPQC", "BCJSSE"}

  /** The instance fields of a `ProviderDetection` object; `None` is `null`. */
  datatype Detector = Detector(provider: Option<string>, rulesDirectory: Option<string>)

  /** A newly constructed `ProviderDetection`. */
  const Fresh := Detector(None, None)

  /** A rule loaded by the rule-set loader; its content does not matter here. */
  datatype Rule = Rule(className: string)

  /** What visiting one unit does to the scan: return a provider (possibly `null`) at once,
      or go on with the next unit. */
  datatype Decision = Return(provider: Option<string>) | Continue

  /** Provider values the detection may hold: `null` or the one identifier it knows. */
  predicate IsProviderOutcome(r: Option<string>) {
    r == None || r == Some(BouncyCastleJca)
  }

  // ---------------------------------------------------------------------------------------
  // Reference definitions

  /** The provider argument of a qualifying call site: the statement is an assignment whose
      right side is a static invocation of a method whose name matches `getInstance` and that
      has two parameters; the provider is the second argument. */
  function ProviderArgument(s: Stmt): Option<Value> {
    match s
    case Assign(_, StaticInvoke(name, args, _)) =>
      if MatchesDotPattern(name, GetInstancePattern) && |args| == 2 then Some(args[1]) else None
    case _ => None
  }

  /** Some `if` statement of the body mentions the value's text. */
  predicate IfGuarded(v: Value, body: Body) {
    exists i | 0 <= i < |body| :: body[i].If? && Contains(body[i].text, v.text)
  }

  /** Some table switch of the body mentions the value's text (lookup switches are not looked at). */
  predicate SwitchGuarded(v: Value, body: Body) {
    exists i | 0 <= i < |body| :: body[i].TableSwitch? && Contains(body[i].text, v.text)
  }

  /** The statement assigns to the value a right side whose text, with quotes removed, is a
      known provider code. */
  predicate IsKnownLiteralAssign(s: Stmt, v: Value) {
    s.Assign? && s.lhs == v && RemoveAll(s.rhs.text, '"') in KnownCodes
  }

  /** Some statement of the body assigns a known provider code to the value. */
  predicate ResolvesLiteral(v: Value, body: Body) {
    exists i | 0 <= i < |body| :: IsKnownLiteralAssign(body[i], v)
  }

  /** The keys of the pooled allocation-site map: every site some backward query from a
      predecessor of the call site reports, whatever the order or repetition of predecessors. */
  ghost function PooledSites(o: Oracle, callSite: Location, v: Value): set<AllocationSite> {
    set p, a | p in o.predsOf(callSite) && a in o.allocationSites(BackwardQuery(p, callSite.inMethod, v)) :: a
  }

  /** The decision over the pooled sites: a provider only for a single site of a BouncyCastle
      type; no site, several sites or one unrecognised site give `null`. */
  function DecideFromSites(pool: set<AllocationSite>): (r: Option<string>)
    ensures r == Some(BouncyCastleJca) <==>
      exists a :: a in pool && pool == {a} && Contains(a.value.typeName, BouncyCastle)
    ensures IsProviderOutcome(r)
    ensures |pool| != 1 ==> r == None
  {
    if |pool| == 1 && exists a | a in pool :: Contains(a.value.typeName, BouncyCastle) then
      var a :| a in pool && Contains(a.value.typeName, BouncyCastle);
      SingletonSet(pool, a);
      Some(BouncyCastleJca)
    else
      None
  }

  lemma SingletonSet<T>(s: set<T>, x: T)
    requires |s| == 1 && x in s
    ensures s == {x}
  {
    assert |s - {x}| == 0;
  }

  /** The decision for one visited unit. An object-typed provider argument always ends the
      scan; a string-typed one ends it unless an `if` or table switch mentions it; anything
      else lets the scan go on. */
  ghost function Step(o: Oracle, site: Site): Decision {
    match ProviderArgument(site.stmt)
    case None => Continue
    case Some(v) =>
      if MatchesDotPattern(v.typeName, ProviderTypePattern) then
        Return(DecideFromSites(PooledSites(o, site.loc, v)))
      else if MatchesDotPattern(v.typeName, StringTypePattern) then
        if !IfGuarded(v, site.body.units) && !SwitchGuarded(v, site.body.units) then
          Return(if ResolvesLiteral(v, site.body.units) then Some(BouncyCastleJca) else None)
        else
          Continue
      else
        Continue
  }

  /** The first decision along a sequence of units. */
  ghost function FirstDecision(o: Oracle, sites: seq<Site>): Decision {
    if |sites| == 0 then Continue
    else if Step(o, sites[0]).Return? then Step(o, sites[0])
    else FirstDecision(o, sites[1..])
  }

  /** A whole `doAnalysis` run: the detector afterwards and the value returned. When no unit
      decides, the run returns whatever `provider` the detector already held. */
  ghost function Analysis(d: Detector, p: Program, o: Oracle): (Detector, Option<string>) {
    match FirstDecision(o, VisitOrder(p))
    case Return(r) => (d.(provider := r), r)
    case Continue => (d, d.provider)
  }

  /** Scanning a concatenation: the second part is reached only if the first does not decide. */
  lemma {:induction false} FirstDecisionAppend(o: Oracle, a: seq<Site>, b: seq<Site>)
    ensures FirstDecision(o, a + b) ==
      if FirstDecision(o, a).Return? then FirstDecision(o, a) else FirstDecision(o, b)
    decreases |a|
  {
    if |a| == 0 {
      assert a + b == b;
    } else {
      assert (a + b)[0] == a[0];
      assert (a + b)[1..] == a[1..] + b;
      FirstDecisionAppend(o, a[1..], b);
    }
  }

  /** Once a prefix of the units decides, nothing after it matters. */
  lemma FirstDecisionOfPrefix(o: Oracle, a: seq<Site>, b: seq<Site>)
    requires a <= b && FirstDecision(o, a).Return?
    ensures FirstDecision(o, b) == FirstDecision(o, a)
  {
    assert b == a + b[|a|..];
    FirstDecisionAppend(o, a, b[|a|..]);
  }

  // ---------------------------------------------------------------------------------------
  // The code

  /** `checkIfStmt`: whether an `if` statement of the body mentions the provider value. */
  method CheckIfStmt(providerValue: Value, body: Body) returns (r: bool)
    ensures r <==> IfGuarded(providerValue, body)
  {
    var value := providerValue.text;
    for i := 0 to |body|
      invariant forall j | 0 <= j < i :: !(body[j].If? && Contains(body[j].text, value))
    {
      match body[i]
      case If(text) =>
        if Contains(text, value) {
          return true;
        }
      case _ =>
    }
    return false;
  }

  /** `checkSwitchStmt`: whether a table switch of the body mentions the provider value. */
  method CheckSwitchStmt(providerValue: Value, body: Body) returns (r: bool)
    ensures r <==> SwitchGuarded(providerValue, body)
  {
    var value := providerValue.text;
    for i := 0 to |body|
      invariant forall j | 0 <= j < i :: !(body[j].TableSwitch? && Contains(body[j].text, value))
    {
      match body[i]
      case TableSwitch(text) =>
        if Contains(text, value) {
          return true;
        }
      case _ =>
    }
    return false;
  }

  /** `getProviderWhenTypeString`: the first assignment of a known code to the provider value
      gives BouncyCastle; assignments of other right sides are passed over. */
  method ProviderWhenTypeString(providerValue: Value, body: Body) returns (r: Option<string>)
    ensures r == Some(BouncyCastleJca) <==> ResolvesLiteral(providerValue, body)
    ensures r == None <==> !ResolvesLiteral(providerValue, body)
  {
    for i := 0 to |body|
      invariant forall j | 0 <= j < i :: !IsKnownLiteralAssign(body[j], providerValue)
    {
      match body[i]
      case Assign(lhs, rhs) =>
        if lhs == providerValue {
          var provider := RemoveAll(rhs.text, '"');
          if provider == "BC" || provider == "BCPQC" || provider == "BCJSSE" {
            return Some(BouncyCastleJca);
          }
        }
      case _ =>
    }
    return None;
  }

  /** The loop of `getProviderWhenTypeProvider` that puts the allocation sites of the
      backward query from every predecessor into one map. */
  method PoolAllocationSites(o: Oracle, callSite: Location, providerValue: Value)
    returns (pool: set<AllocationSite>)
    ensures forall a :: a in pool <==>
      exists p :: p in o.predsOf(callSite) &&
        a in o.allocationSites(BackwardQuery(p, callSite.inMethod, providerValue))
    ensures pool == PooledSites(o, callSite, providerValue)
  {
    var preds := o.predsOf(callSite);
    pool := {};
    for i := 0 to |preds|
      invariant forall a :: a in pool <==>
        exists j | 0 <= j < i :: a in o.allocationSites(BackwardQuery(preds[j], callSite.inMethod, providerValue))
    {
      pool := pool + o.allocationSites(BackwardQuery(preds[i], callSite.inMethod, providerValue));
    }
  }

  /** `getProviderWhenTypeProvider`: pool the allocation sites, then decide on their number
      and, for a single one, its type name. */
  method ProviderWhenTypeProvider(callSite: Location, providerValue: Value, o: Oracle)
    returns (r: Option<string>)
    ensures r == DecideFromSites(PooledSites(o, callSite, providerValue))
  {
    var pool := PoolAllocationSites(o, callSite, providerValue);
    r := None;
    if |pool| == 1 {
      var a :| a in pool;
      SingletonSet(pool, a);
      if Contains(a.value.typeName, BouncyCastle) {
        r := Some(BouncyCastleJca);
      }
    }
  }

  /** The body of the innermost loop of `doAnalysis` for one unit: `Return` where the Java
      code returns, `Continue` where it goes on to the next unit. */
  method VisitUnit(o: Oracle, site: Site) returns (dec: Decision)
    ensures dec == Step(o, site)
  {
    match site.stmt
    case Assign(_, StaticInvoke(methodName, args, _)) =>
      if MatchesDotPattern(methodName, GetInstancePattern) && |args| == 2 {
        var providerValue := args[1];
        var providerType := providerValue.typeName;
        if MatchesDotPattern(providerType, ProviderTypePattern) {
          var provider := ProviderWhenTypeProvider(site.loc, providerValue, o);
          return Return(provider);
        } else if MatchesDotPattern(providerType, StringTypePattern) {
          var ifStmt := CheckIfStmt(providerValue, site.body.units);
          var switchStmt := CheckSwitchStmt(providerValue, site.body.units);
          if !ifStmt && !switchStmt {
            var provider := ProviderWhenTypeString(providerValue, site.body.units);
            return Return(provider);
          }
        }
      }
      return Continue;
    case _ =>
      return Continue;
  }

  /** The innermost loop of `doAnalysis`: the units of one active body, up to the first
      that decides. */
  method ScanBody(o: Oracle, m: MethodRef, body: Body) returns (dec: Decision)
    ensures dec == FirstDecision(o, UnitSites(m, body, |body|))
  {
    for u := 0 to |body|
      invariant FirstDecision(o, UnitSites(m, body, u)) == Continue
    {
      var site := Site(Location(m, u), body[u], Units(body));
      dec := VisitUnit(o, site);
      UnitSitesStep(m, body, u);
      FirstDecisionAppend(o, UnitSites(m, body, u), [site]);
      if dec.Return? {
        UnitsPrefix(m, body, u + 1);
        FirstDecisionOfPrefix(o, UnitSites(m, body, u + 1), UnitSites(m, body, |body|));
        return;
      }
    }
    return Continue;
  }

  /** The middle loop of `doAnalysis`: the methods of one class, skipping those without an
      active body, up to the first unit that decides. */
  method ScanMethods(o: Oracle, c: nat, methods: seq<SootMethod>) returns (dec: Decision)
    ensures dec == FirstDecision(o, MethodSites(c, methods, |methods|))
  {
    for i := 0 to |methods|
      invariant FirstDecision(o, MethodSites(c, methods, i)) == Continue
    {
      match methods[i].activeBody
      case None =>
        MethodWithoutBody(c, methods, i, i + 1);
      case Some(body) =>
        dec := ScanBody(o, MethodRef(c, i), body);
        MethodScanned(o, c, methods, i, i + 1, body);
        if dec.Return? {
          return;
        }
    }
    return Continue;
  }

  /** A method without an active body adds no sites; `next` is `i + 1`, passed separately
      because it keeps the proof obligations cheap. */
  lemma MethodWithoutBody(c: nat, methods: seq<SootMethod>, i: nat, next: nat)
    requires i < |methods| && next == i + 1 && methods[i].activeBody.None?
    ensures MethodSites(c, methods, next) == MethodSites(c, methods, i)
  {
  }

  /** After the units of method `i`: a decision among them is the decision of the whole class,
      and otherwise the scan of the first `i + 1` methods is still undecided; `next` is `i + 1`. */
  lemma MethodScanned(o: Oracle, c: nat, methods: seq<SootMethod>, i: nat, next: nat, body: Body)
    requires i < |methods| && next == i + 1 && methods[i].activeBody == Some(body)
    requires FirstDecision(o, MethodSites(c, methods, i)) == Continue
    ensures var dec := FirstDecision(o, UnitSites(MethodRef(c, i), body, |body|));
      && (dec.Return? ==> FirstDecision(o, MethodSites(c, methods, |methods|)) == dec)
      && (dec == Continue ==> FirstDecision(o, MethodSites(c, methods, next)) == Continue)
  {
    var m := MethodRef(c, i);
    MethodSitesStep(c, methods, i, body);
    FirstDecisionAppend(o, MethodSites(c, methods, i), UnitSites(m, body, |body|));
    if FirstDecision(o, MethodSites(c, methods, next)).Return? {
      MethodSitesPrefix(c, methods, next, |methods|);
      FirstDecisionOfPrefix(o, MethodSites(c, methods, next), MethodSites(c, methods, |methods|));
    }
  }

  /** The scan of the first `c + 1` classes: that of the first `c`, then class `c`. */
  lemma ClassStep(o: Oracle, p: Program, c: nat)
    requires c < |p|
    ensures FirstDecision(o, ClassSites(p, c + 1)) ==
      if FirstDecision(o, ClassSites(p, c)).Return? then FirstDecision(o, ClassSites(p, c))
      else FirstDecision(o, MethodSites(c, p[c].methods, |p[c].methods|))
  {
    assert ClassSites(p, c + 1) == ClassSites(p, c) + MethodSites(c, p[c].methods, |p[c].methods|);
    FirstDecisionAppend(o, ClassSites(p, c), MethodSites(c, p[c].methods, |p[c].methods|));
  }

  /** A decision within the first `n` classes is the decision of the whole run. */
  lemma DecidedWithin(d: Detector, p: Program, o: Oracle, n: nat)
    requires n <= |p| && FirstDecision(o, ClassSites(p, n)).Return?
    ensures Analysis(d, p, o) ==
      (d.(provider := FirstDecision(o, ClassSites(p, n)).provider), FirstDecision(o, ClassSites(p, n)).provider)
  {
    ClassSitesPrefix(p, n, |p|);
    FirstDecisionOfPrefix(o, ClassSites(p, n), VisitOrder(p));
  }

  /** `doAnalysis`: visit the units of the active bodies of the application classes in order
      and return at the first object-typed provider argument, or at the first string-typed
      one that no branch mentions. Reaching the end returns the `provider` already held. */
  method DoAnalysis(d: Detector, p: Program, o: Oracle) returns (d': Detector, r: Option<string>)
    ensures (d', r) == Analysis(d, p, o)
    ensures r == d'.provider && d'.rulesDirectory == d.rulesDirectory
  {
    for c := 0 to |p|
      invariant FirstDecision(o, ClassSites(p, c)) == Continue
    {
      var dec := ScanMethods(o, c, p[c].methods);
      ClassStep(o, p, c);
      if dec.Return? {
        DecidedWithin(d, p, o, c + 1);
        r := dec.provider;
        d' := d.(provider := r);
        return;
      }
    }
    d', r := d, d.provider;
  }

  /** `chooseRules`: if the path exists (`File.exists`, which also holds for a regular file),
      remember it and return the rules loaded from it; otherwise return `null` and leave the
      detector as it was. Path existence and rule loading are given as functions. */
  function ChooseRules(d: Detector, providerRulesDirectory: string,
                       pathExists: string -> bool, makeFromPath: string -> seq<Rule>)
    : (r: (Detector, Option<seq<Rule>>))
    ensures r.1.Some? <==> pathExists(providerRulesDirectory)
    ensures r.1.Some? ==>
      r.1.value == makeFromPath(providerRulesDirectory) && r.0.rulesDirectory == Some(providerRulesDirectory)
    ensures r.1.None? ==> r.0 == d
    ensures r.0.provider == d.provider
  {
    if pathExists(providerRulesDirectory) then
      (d.(rulesDirectory := Some(providerRulesDirectory)), Some(makeFromPath(providerRulesDirectory)))
    else
      (d, None)
  }
}

=== FILE: scan_order.dfy ===
/** The order in which `doAnalysis` visits units: application classes in Scene order, then
    the methods of each class that have an active body, then the units of that body. The nested
    loops of the analysis are flattened here into one sequence of sites, and the lemmas show the
    sequence holds exactly the units of active bodies, each once, in lexicographic order. */
module ScanOrder {
  import opened Options
  import opened Jimple

  /** The first `n` units of `body`, as sites of method `m`. */
  function UnitSites(m: MethodRef, body: Body, n: nat): (r: seq<Site>)
    requires n <= |body|
    ensures |r| == n
    ensures forall k | 0 <= k < n :: r[k] == Site(Location(m, k), body[k], Units(body))
  {
    seq(n, k requires 0 <= k < n => Site(Location(m, k), body[k], Units(body)))
  }

  /** The sites of one method: the units of its active body, or none without one. */
  function BodySites(m: MethodRef, sm: SootMethod): seq<Site> {
    match sm.activeBody
    case None => []
    case Some(b) => UnitSites(m, b, |b|)
  }

  /** The sites of the first `n` methods of class number `c`. */
  function MethodSites(c: nat, ms: seq<SootMethod>, n: nat): seq<Site>
    requires n <= |ms|
  {
    if n == 0 then [] else MethodSites(c, ms, n - 1) + BodySites(MethodRef(c, n - 1), ms[n - 1])
  }

  /** The sites of the first `n` classes of the program. */
  function ClassSites(p: Program, n: nat): seq<Site>
    requires n <= |p|
  {
    if n == 0 then [] else ClassSites(p, n - 1) + MethodSites(n - 1, p[n - 1].methods, |p[n - 1].methods|)
  }

  /** Every unit the analysis may visit, in the order it visits them. */
  function VisitOrder(p: Program): seq<Site> {
    ClassSites(p, |p|)
  }

  /** The site is the unit it claims to be: unit `unit` of the active body of the method
      at its position. */
  ghost predicate IsUnitOf(p: Program, s: Site) {
    var m := s.loc.inMethod;
    && m.cls < |p|
    && m.index < |p[m.cls].methods|
    && p[m.cls].methods[m.index].activeBody == Some(s.body.units)
    && s.loc.unit < |s.body.units|
    && s.body.units[s.loc.unit] == s.stmt
  }

  /** Strict lexicographic order on (class, method, unit) positions. */
  predicate Before(a: Location, b: Location) {
    || a.inMethod.cls < b.inMethod.cls
    || (a.inMethod.cls == b.inMethod.cls && a.inMethod.index < b.inMethod.index)
    || (a.inMethod == b.inMethod && a.unit < b.unit)
  }

  ghost predicate Increasing(s: seq<Site>) {
    forall j, k | 0 <= j < k < |s| :: Before(s[j].loc, s[k].loc)
  }

  lemma IncreasingAppend(a: seq<Site>, b: seq<Site>)
    requires Increasing(a) && Increasing(b)
    requires forall j, k | 0 <= j < |a| && 0 <= k < |b| :: Before(a[j].loc, b[k].loc)
    ensures Increasing(a + b)
  {
    forall j, k | 0 <= j < k < |a + b|
      ensures Before((a + b)[j].loc, (a + b)[k].loc)
    {
      if k < |a| {
        assert (a + b)[j] == a[j] && (a + b)[k] == a[k];
      } else if j >= |a| {
        assert (a + b)[j] == b[j - |a|] && (a + b)[k] == b[k - |a|];
      } else {
        assert (a + b)[j] == a[j] && (a + b)[k] == b[k - |a|];
      }
    }
  }

  /** Every site of `s` is a unit of class `c`, in a method numbered from `lo` up to (not
      including) `hi`. */
  ghost predicate UnitsOfMethods(p: Program, s: seq<Site>, c: nat, lo: nat, hi: nat) {
    forall i | 0 <= i < |s| ::
      IsUnitOf(p, s[i]) && s[i].loc.inMethod.cls == c && lo <= s[i].loc.inMethod.index < hi
  }

  /** Every site of `s` is a unit of a class numbered from `lo` up to (not including) `hi`. */
  ghost predicate UnitsOfClasses(p: Program, s: seq<Site>, lo: nat, hi: nat) {
    forall i | 0 <= i < |s| :: IsUnitOf(p, s[i]) && lo <= s[i].loc.inMethod.cls < hi
  }

  /** The sites of one method are its units, in order. */
  lemma BodySitesFacts(p: Program, c: nat, i: nat)
    requires c < |p| && i < |p[c].methods|
    ensures UnitsOfMethods(p, BodySites(MethodRef(c, i), p[c].methods[i]), c, i, i + 1)
    ensures Increasing(BodySites(MethodRef(c, i), p[c].methods[i]))
  {
  }

  /** Appending the sites of method `k` to those of the earlier methods of class `c` keeps
      the sites in order. */
  lemma MethodsAppend(p: Program, c: nat, a: seq<Site>, b: seq<Site>, k: nat)
    requires Increasing(a) && Increasing(b)
    requires UnitsOfMethods(p, a, c, 0, k) && UnitsOfMethods(p, b, c, k, k + 1)
    ensures UnitsOfMethods(p, a + b, c, 0, k + 1)
    ensures Increasing(a + b)
  {
    IncreasingAppend(a, b);
    forall i | 0 <= i < |a + b|
      ensures IsUnitOf(p, (a + b)[i]) && (a + b)[i].loc.inMethod.cls == c && 0 <= (a + b)[i].loc.inMethod.index < k + 1
    {
      if i < |a| {
        assert (a + b)[i] == a[i];
      } else {
        assert (a + b)[i] == b[i - |a|];
      }
    }
  }

  lemma MethodSitesFactsStep(p: Program, c: nat, n: nat)
    requires c < |p| && 0 < n <= |p[c].methods|
    requires UnitsOfMethods(p, MethodSites(c, p[c].methods, n - 1), c, 0, n - 1)
    requires Increasing(MethodSites(c, p[c].methods, n - 1))
    ensures UnitsOfMethods(p, MethodSites(c, p[c].methods, n), c, 0, n)
    ensures Increasing(MethodSites(c, p[c].methods, n))
  {
    var ms := p[c].methods;
    var a := MethodSites(c, ms, n - 1);
    var b := BodySites(MethodRef(c, n - 1), ms[n - 1]);
    BodySitesFacts(p, c, n - 1);
    MethodsAppend(p, c, a, b, n - 1);
    assert MethodSites(c, ms, n) == a + b;
  }

  lemma {:induction false} MethodSitesFacts(p: Program, c: nat, n: nat)
    requires c < |p| && n <= |p[c].methods|
    ensures UnitsOfMethods(p, MethodSites(c, p[c].methods, n), c, 0, n)
    ensures Increasing(MethodSites(c, p[c].methods, n))
  {
    if n > 0 {
      MethodSitesFacts(p, c, n - 1);
      MethodSitesFactsStep(p, c, n);
    }
  }

  lemma ClassSitesStep(p: Program, n: nat)
    requires 0 < n <= |p|
    ensures ClassSites(p, n) == ClassSites(p, n - 1) + MethodSites(n - 1, p[n - 1].methods, |p[n - 1].methods|)
  {
  }

  /** Appending the sites of class `k` to those of the earlier classes keeps the sites in order. */
  lemma ClassesAppend(p: Program, a: seq<Site>, b: seq<Site>, k: nat)
    requires Increasing(a) && Increasing(b)
    requires UnitsOfClasses(p, a, 0, k) && UnitsOfClasses(p, b, k, k + 1)
    ensures UnitsOfClasses(p, a + b, 0, k + 1)
    ensures Increasing(a + b)
  {
    IncreasingAppend(a, b);
    forall i | 0 <= i < |a + b|
      ensures IsUnitOf(p, (a + b)[i]) && 0 <= (a + b)[i].loc.inMethod.cls < k + 1
    {
      if i < |a| {
        assert (a + b)[i] == a[i];
      } else {
        assert (a + b)[i] == b[i - |a|];
      }
    }
  }

  lemma {:induction false} ClassSitesFacts(p: Program, n: nat)
    requires n <= |p|
    ensures UnitsOfClasses(p, ClassSites(p, n), 0, n)
    ensures Increasing(ClassSites(p, n))
  {
    if n > 0 {
      var a := ClassSites(p, n - 1);
      var b := MethodSites(n - 1, p[n - 1].methods, |p[n - 1].methods|);
      ClassSitesFacts(p, n - 1);
      MethodSitesFacts(p, n - 1, |p[n - 1].methods|);
      ClassesAppend(p, a, b, n - 1);
      ClassSitesStep(p, n);
    }
  }

  /** Soundness and order of the scan: every visited site is a real unit of an active body,
      and the sites come class by class, method by method, unit by unit, so no unit is
      visited twice. */
  lemma ScanOrderSoundAndOrdered(p: Program)
    ensures forall s | s in VisitOrder(p) :: IsUnitOf(p, s)
    ensures Increasing(VisitOrder(p))
  {
    ClassSitesFacts(p, |p|);
  }

  lemma {:induction false} MethodSitesComplete(c: nat, ms: seq<SootMethod>, n: nat, i: nat, b: Body, u: nat)
    requires n <= |ms| && i < n
    requires ms[i].activeBody == Some(b) && u < |b|
    ensures Site(Location(MethodRef(c, i), u), b[u], Units(b)) in MethodSites(c, ms, n)
  {
    if i < n - 1 {
      MethodSitesComplete(c, ms, n - 1, i, b, u);
    } else {
      assert UnitSites(MethodRef(c, i), b, |b|)[u] == Site(Location(MethodRef(c, i), u), b[u], Units(b));
    }
  }

  /** A site of the first `k` classes, or of class `k`, is a site of the first `k + 1`. */
  lemma ClassSitesGrow(p: Program, k: nat, x: Site)
    requires k < |p|
    requires x in ClassSites(p, k) || x in MethodSites(k, p[k].methods, |p[k].methods|)
    ensures x in ClassSites(p, k + 1)
  {
    assert ClassSites(p, k + 1) == ClassSites(p, k) + MethodSites(k, p[k].methods, |p[k].methods|);
    InAppend(x, ClassSites(p, k), MethodSites(k, p[k].methods, |p[k].methods|));
  }

  lemma ClassSitesComplete(p: Program, n: nat, c: nat, i: nat, b: Body, u: nat)
    requires n <= |p| && c < n && i < |p[c].methods|
    requires p[c].methods[i].activeBody == Some(b) && u < |b|
    ensures Site(Location(MethodRef(c, i), u), b[u], Units(b)) in ClassSites(p, n)
  {
    var x := Site(Location(MethodRef(c, i), u), b[u], Units(b));
    MethodSitesComplete(c, p[c].methods, |p[c].methods|, i, b, u);
    ClassSitesReach(p, n, c, c + 1, x);
  }

  /** A site of class `c` is a site of every longer prefix of classes; `next` is `c + 1`,
      passed separately because it keeps the proof obligations cheap. */
  lemma ClassSitesReach(p: Program, n: nat, c: nat, next: nat, x: Site)
    requires n <= |p| && c < n && next == c + 1
    requires x in MethodSites(c, p[c].methods, |p[c].methods|)
    ensures x in ClassSites(p, n)
  {
    ClassSitesGrow(p, c, x);
    ClassSitesPrefix(p, next, n);
    InPrefix(x, ClassSites(p, next), ClassSites(p, n));
  }

  /** Completeness of the scan: every unit of every active body of every application class
      is visited. */
  lemma ScanOrderComplete(p: Program, c: nat, i: nat, u: nat)
    requires c < |p| && i < |p[c].methods|
    requires p[c].methods[i].activeBody.Some? && u < |p[c].methods[i].activeBody.value|
    ensures var b := p[c].methods[i].activeBody.value;
      Site(Location(MethodRef(c, i), u), b[u], Units(b)) in VisitOrder(p)
  {
    ClassSitesComplete(p, |p|, c, i, p[c].methods[i].activeBody.value, u);
  }

  lemma InAppend<T>(x: T, a: seq<T>, b: seq<T>)
    requires x in a || x in b
    ensures x in a + b
  {
  }

  lemma InPrefix<T>(x: T, a: seq<T>, b: seq<T>)
    requires x in a && a <= b
    ensures x in b
  {
    var k :| 0 <= k < |a| && a[k] == x;
    assert b[k] == x;
  }

  lemma PrefixOfAppend<T>(a: seq<T>, b: seq<T>)
    ensures a <= a + b
  {
    assert (a + b)[..|a|] == a;
  }

  lemma PrefixTransitive<T>(a: seq<T>, b: seq<T>, c: seq<T>)
    requires a <= b && b <= c
    ensures a <= c
  {
    assert b[..|a|] == a;
    assert c[..|b|] == b;
    assert c[..|a|] == b[..|a|];
  }

  lemma MethodSitesPrefixStep(c: nat, ms: seq<SootMethod>, n: nat, m: nat)
    requires n < m <= |ms| && MethodSites(c, ms, n) <= MethodSites(c, ms, m - 1)
    ensures MethodSites(c, ms, n) <= MethodSites(c, ms, m)
  {
    var a := MethodSites(c, ms, m - 1);
    var b := BodySites(MethodRef(c, m - 1), ms[m - 1]);
    assert MethodSites(c, ms, m) == a + b;
    PrefixOfAppend(a, b);
    PrefixTransitive(MethodSites(c, ms, n), a, a + b);
  }

  lemma MethodSitesPrefix(c: nat, ms: seq<SootMethod>, n: nat, m: nat)
    requires n <= m <= |ms|
    ensures MethodSites(c, ms, n) <= MethodSites(c, ms, m)
    decreases m
  {
    if n < m {
      MethodSitesPrefix(c, ms, n, m - 1);
      MethodSitesPrefixStep(c, ms, n, m);
    }
  }

  lemma ClassSitesPrefixStep(p: Program, n: nat, m: nat)
    requires n < m <= |p| && ClassSites(p, n) <= ClassSites(p, m - 1)
    ensures ClassSites(p, n) <= ClassSites(p, m)
  {
    var a := ClassSites(p, m - 1);
    var b := MethodSites(m - 1, p[m - 1].methods, |p[m - 1].methods|);
    ClassSitesStep(p, m);
    PrefixOfAppend(a, b);
    PrefixTransitive(ClassSites(p, n), a, a + b);
  }

  lemma ClassSitesPrefix(p: Program, n: nat, m: nat)
    requires n <= m <= |p|
    ensures ClassSites(p, n) <= ClassSites(p, m)
    decreases m
  {
    if n < m {
      ClassSitesPrefix(p, n, m - 1);
      ClassSitesPrefixStep(p, n, m);
    }
  }

  lemma UnitsPrefix(m: MethodRef, b: Body, n: nat)
    requires n <= |b|
    ensures UnitSites(m, b, n) <= UnitSites(m, b, |b|)
  {
    var us := UnitSites(m, b, n);
    var all := UnitSites(m, b, |b|);
    assert all[..n] == us;
  }

  lemma UnitSitesStep(m: MethodRef, body: Body, u: nat)
    requires u < |body|
    ensures UnitSites(m, body, u + 1) == UnitSites(m, body, u) + [Site(Location(m, u), body[u], Units(body))]
  {
    assert UnitSites(m, body, u + 1)[..u] == UnitSites(m, body, u);
  }

  lemma MethodSitesStep(c: nat, ms: seq<SootMethod>, i: nat, b: Body)
    requires i < |ms| && ms[i].activeBody == Some(b)
    ensures MethodSites(c, ms, i + 1) == MethodSites(c, ms, i) + UnitSites(MethodRef(c, i), b, |b|)
  {
  }

}

=== FILE: scenarios.dfy ===
/** Whole runs on small concrete programs: one application class with one method whose
    body calls `Cipher.getInstance(algorithm, provider)`. */
module Scenarios {
  import opened Options
  import opened TextMatch
  import opened Jimple
  import opened ScanOrder
  import opened ProviderDetection
  import opened DetectionProperties

  const Algorithm := Value("\"AES\"", "java.lang.String")
  const ProviderName := Value("r1", "java.lang.String")
  const ProviderObject := Value("r3", "java.security.Provider")
  const CipherLocal := Value("r2", "javax.crypto.Cipher")

  /** `r2 = staticinvoke <Cipher.getInstance>(algorithm, provider)`. */
  function GetInstance(provider: Value): Stmt {
    Assign(CipherLocal, StaticInvoke("getInstance", [Algorithm, provider],
      "staticinvoke <javax.crypto.Cipher: getInstance>(\"AES\", " + provider.text + ")"))
  }

  /** `r1 = <literal>`. */
  function AssignLiteral(literal: string): Stmt {
    Assign(ProviderName, OtherExpr(literal))
  }

  function OneMethod(body: Body): Program {
    [SootClass("Main", [SootMethod("main", Some(body))])]
  }

  /** Unit `j` of the single method, as the scanner visits it. */
  function UnitAt(body: Body, j: nat): Site
    requires j < |body|
  {
    Site(Location(MethodRef(0, 0), j), body[j], Units(body))
  }

  lemma OneMethodOrder(body: Body)
    ensures VisitOrder(OneMethod(body)) == UnitSites(MethodRef(0, 0), body, |body|)
  {
    var p := OneMethod(body);
    assert ClassSites(p, 1) == ClassSites(p, 0) + MethodSites(0, p[0].methods, 1);
    assert MethodSites(0, p[0].methods, 1) == MethodSites(0, p[0].methods, 0) + UnitSites(MethodRef(0, 0), body, |body|);
  }

  /** A one-method run ends at its first deciding unit, with that unit's decision. */
  lemma OneMethodDecided(o: Oracle, body: Body, k: nat, r: Option<string>)
    requires k < |body|
    requires forall j | 0 <= j < k :: Step(o, UnitAt(body, j)) == Continue
    requires Step(o, UnitAt(body, k)) == Return(r)
    ensures Analysis(Fresh, OneMethod(body), o) == (Fresh.(provider := r), r)
  {
    var p := OneMethod(body);
    OneMethodOrder(body);
    var order := VisitOrder(p);
    assert order[k] == UnitAt(body, k);
    assert Undecided(o, order[..k]) by {
      forall j | 0 <= j < k
        ensures Step(o, order[..k][j]) == Continue
      {
        assert order[..k][j] == UnitAt(body, j);
      }
    }
    RunDecidedByFirstStep(Fresh, p, o, k);
  }

  /** A one-method run in which no unit decides leaves a fresh detector fresh. */
  lemma OneMethodUndecided(o: Oracle, body: Body)
    requires forall j | 0 <= j < |body| :: Step(o, UnitAt(body, j)) == Continue
    ensures Analysis(Fresh, OneMethod(body), o) == (Fresh, None)
  {
    var p := OneMethod(body);
    OneMethodOrder(body);
    var order := VisitOrder(p);
    assert Undecided(o, order) by {
      forall j | 0 <= j < |order|
        ensures Step(o, order[j]) == Continue
      {
        assert order[j] == UnitAt(body, j);
      }
    }
    UndecidedRunReturnsHeldProvider(Fresh, p, o);
  }

  lemma GetInstanceQualifies(provider: Value)
    ensures ProviderArgument(GetInstance(provider)) == Some(provider)
  {
    MatchesItself(GetInstancePattern);
  }

  /** A string-typed call site that no branch mentions decides on the literal table. */
  lemma UnguardedStringSite(o: Oracle, body: Body, k: nat)
    requires k < |body| && body[k] == GetInstance(ProviderName)
    requires !IfGuarded(ProviderName, body) && !SwitchGuarded(ProviderName, body)
    ensures Step(o, UnitAt(body, k))
      == Return(if ResolvesLiteral(ProviderName, body) then Some(BouncyCastleJca) else None)
  {
    GetInstanceQualifies(ProviderName);
    MatchesItself(StringTypePattern);
  }

  /** A string-typed call site that an `if` mentions is skipped. */
  lemma GuardedStringSite(o: Oracle, body: Body, k: nat)
    requires k < |body| && body[k] == GetInstance(ProviderName)
    requires IfGuarded(ProviderName, body)
    ensures Step(o, UnitAt(body, k)) == Continue
  {
    GetInstanceQualifies(ProviderName);
    MatchesItself(StringTypePattern);
    TypePatternsDisjoint(ProviderName.typeName);
  }

  /** An assignment of a literal is not a call site. */
  lemma LiteralSiteContinues(o: Oracle, s: Site, literal: string)
    requires s.stmt == AssignLiteral(literal)
    ensures Step(o, s) == Continue
  {
  }

  /** `r1` occurs in `if r1 == null goto label1`. */
  lemma NullTestMentionsProvider()
    ensures Contains("if r1 == null goto label1", ProviderName.text)
  {
    var text := "if r1 == null goto label1";
    assert text[3] == 'r' && text[4] == '1';
    assert text[3..5] == "r1";
    assert OccursAt(text, "r1", 3);
  }

  /** A body without `if` statements and table switches guards nothing. */
  lemma BranchFreeUnguarded(v: Value, body: Body)
    requires forall i | 0 <= i < |body| :: !body[i].If? && !body[i].TableSwitch?
    ensures !IfGuarded(v, body) && !SwitchGuarded(v, body)
  {
  }

  /** Assign a literal to `r1`, then pass `r1` as provider: the run returns what the literal
      table says about the literal. */
  lemma LiteralThenCall(o: Oracle, literal: string)
    ensures var body := [AssignLiteral(literal), GetInstance(ProviderName)];
      var r := if RemoveAll(literal, '"') in KnownCodes then Some(BouncyCastleJca) else None;
      Analysis(Fresh, OneMethod(body), o) == (Fresh.(provider := r), r)
  {
    var body := [AssignLiteral(literal), GetInstance(ProviderName)];
    var r := if RemoveAll(literal, '"') in KnownCodes then Some(BouncyCastleJca) else None;
    BranchFreeUnguarded(ProviderName, body);
    assert ResolvesLiteral(ProviderName, body) <==> RemoveAll(literal, '"') in KnownCodes by {
      assert IsKnownLiteralAssign(body[0], ProviderName) <==> RemoveAll(literal, '"') in KnownCodes;
      assert !IsKnownLiteralAssign(body[1], ProviderName);
    }
    UnguardedStringSite(o, body, 1);
    LiteralSiteContinues(o, UnitAt(body, 0), literal);
    OneMethodDecided(o, body, 1, r);
  }

  /** A string provider assigned the literal "BC", with no branch on it, is detected. */
  lemma UnguardedBcDetected(o: Oracle)
    ensures Analysis(Fresh, OneMethod([AssignLiteral("\"BC\""), GetInstance(ProviderName)]), o)
      == (Fresh.(provider := Some(BouncyCastleJca)), Some(BouncyCastleJca))
  {
    LiteralThenCall(o, "\"BC\"");
    assert RemoveAll("\"BC\"", '"') == "BC";
    assert "BC" in KnownCodes;
  }

  /** An unknown code ("XX") is not detected, and the scan still stops there. */
  lemma UnknownCodeIsNull(o: Oracle)
    ensures Analysis(Fresh, OneMethod([AssignLiteral("\"XX\""), GetInstance(ProviderName)]), o)
      == (Fresh, None)
  {
    LiteralThenCall(o, "\"XX\"");
    assert RemoveAll("\"XX\"", '"') == "XX";
  }

  /** A string provider tested by an `if` is not resolved even though it is assigned "BC":
      the call site is skipped and, with nothing after it, a fresh detector returns `null`. */
  lemma GuardedLiteralIgnored(o: Oracle)
    ensures Analysis(Fresh, OneMethod([AssignLiteral("\"BC\""), If("if r1 == null goto label1"),
      GetInstance(ProviderName)]), o) == (Fresh, None)
  {
    var body := [AssignLiteral("\"BC\""), If("if r1 == null goto label1"), GetInstance(ProviderName)];
    NullTestMentionsProvider();
    assert IfGuarded(ProviderName, body) by {
      assert body[1].If? && Contains(body[1].text, ProviderName.text);
    }
    LiteralSiteContinues(o, UnitAt(body, 0), "\"BC\"");
    assert Step(o, UnitAt(body, 1)) == Continue;
    GuardedStringSite(o, body, 2);
    OneMethodUndecided(o, body);
  }

  /** Only the first call site counts: a Provider object that the oracle cannot resolve
      stops the scan with `null`, and a later call that would resolve is never looked at. */
  lemma FirstCallSiteWins(o: Oracle)
    requires o.predsOf(Location(MethodRef(0, 0), 0)) == []
    ensures Analysis(Fresh, OneMethod([GetInstance(ProviderObject), AssignLiteral("\"BC\""),
      GetInstance(ProviderName)]), o) == (Fresh, None)
  {
    var body := [GetInstance(ProviderObject), AssignLiteral("\"BC\""), GetInstance(ProviderName)];
    GetInstanceQualifies(ProviderObject);
    MatchesItself(ProviderTypePattern);
    assert PooledSites(o, Location(MethodRef(0, 0), 0), ProviderObject) == {};
    assert Step(o, UnitAt(body, 0)) == Return(None);
    OneMethodDecided(o, body, 0, None);
  }

  /** The object path end to end: when the backward queries from the call site's predecessors
      report a single allocation site whose type names BouncyCastle, the run returns and
      records BouncyCastle. */
  lemma ObjectPathDetected(o: Oracle, a: AllocationSite)
    requires PooledSites(o, Location(MethodRef(0, 0), 0), ProviderObject) == {a}
    requires Contains(a.value.typeName, BouncyCastle)
    ensures Analysis(Fresh, OneMethod([GetInstance(ProviderObject)]), o)
      == (Fresh.(provider := Some(BouncyCastleJca)), Some(BouncyCastleJca))
  {
    var body := [GetInstance(ProviderObject)];
    GetInstanceQualifies(ProviderObject);
    MatchesItself(ProviderTypePattern);
    assert DecideFromSites({a}) == Some(BouncyCastleJca);
    assert Step(o, UnitAt(body, 0)) == Return(Some(BouncyCastleJca));
    OneMethodDecided(o, body, 0, Some(BouncyCastleJca));
  }

  /** `matches` reads '.' as a wildcard: a type named `java$security$Provider` also takes the
      object path. */
  lemma ProviderPatternIsARegex()
    ensures MatchesDotPattern("java$security$Provider", ProviderTypePattern)
    ensures "java$security$Provider" != ProviderTypePattern
  {
    assert "java$security$Provider"[4] != ProviderTypePattern[4];
  }
}

=== FILE: text_match.dfy ===
/** The three string operations of `java.lang.String` that need a definition of their own:
    `contains`, `matches` (with patterns whose only metacharacter is '.') and `replaceAll`
    applied to a single literal character. */
module TextMatch {

  /** `t` occurs in `s` starting at index `i`. */
  predicate OccursAt(s: string, t: string, i: int) {
    0 <= i && i + |t| <= |s| && s[i..i + |t|] == t
  }

  /** `s.contains(t)`: some factor of `s` equals `t`; the empty string occurs in every string. */
  predicate Contains(s: string, t: string) {
    exists i | 0 <= i <= |s| - |t| :: OccursAt(s, t, i)
  }

  /** Characters that end a line in Java regular expressions; '.' does not match them. */
  const LineTerminators: set<char> := {'\n', '\r', '\U{0085}', '\U{2028}', '\U{2029}'}

  /** One character of the subject against one character of the pattern: '.' matches any
      character except a line terminator, every other pattern character matches itself. */
  predicate CharMatches(c: char, p: char) {
    if p == '.' then c !in LineTerminators else c == p
  }

  /** `s.matches(pattern)` for a pattern whose only metacharacter is '.', which is the case of
      every pattern the detection uses: a whole match, character by character. */
  predicate MatchesDotPattern(s: string, pattern: string) {
    |s| == |pattern| && forall i | 0 <= i < |s| :: CharMatches(s[i], pattern[i])
  }

  /** Without a '.' in the pattern, a whole match is plain string equality. */
  lemma MatchesWithoutDotIsEquality(s: string, pattern: string)
    requires '.' !in pattern
    ensures MatchesDotPattern(s, pattern) <==> s == pattern
  {
    if MatchesDotPattern(s, pattern) {
      forall i | 0 <= i < |s|
        ensures s[i] == pattern[i]
      {
        assert pattern[i] != '.';
        assert CharMatches(s[i], pattern[i]);
      }
    }
  }

  /** Every pattern matches its own text ('.' is not a line terminator). */
  lemma MatchesItself(pattern: string)
    ensures MatchesDotPattern(pattern, pattern)
  {
  }

  /** `s.replaceAll(c, "")` for a character `c` that is not a regex metacharacter: every
      occurrence of `c` removed, the other characters kept in order. */
  function RemoveAll(s: string, c: char): (r: string)
    ensures c !in r
    ensures |r| <= |s|
    ensures c !in s ==> r == s
    decreases |s|
  {
    if |s| == 0 then []
    else (if s[0] == c then [] else [s[0]]) + RemoveAll(s[1..], c)
  }

  /** Removal works piecewise: what remains of a concatenation is the concatenation of what
      remains of each part. Together with `RemoveAllOne` this pins `RemoveAll` down. */
  lemma {:induction false} RemoveAllDistributes(a: string, b: string, c: char)
    ensures RemoveAll(a + b, c) == RemoveAll(a, c) + RemoveAll(b, c)
    decreases |a|
  {
    if |a| > 0 {
      RemoveAllDistributes(a[1..], b, c);
      RemoveAllDistributesStep(a, b, c);
    } else {
      assert a + b == b;
    }
  }

  /** The empty and one-character cases: `c` itself is dropped, any other character kept. */
  lemma RemoveAllOne(x: char, c: char)
    ensures RemoveAll([], c) == []
    ensures RemoveAll([x], c) == if x == c then [] else [x]
  {
    assert [x][1..] == [];
  }

  /** Every string is built from single characters, so the two lemmas above determine the
      result: removal keeps exactly the characters other than `c`, in their order. */
  lemma {:induction false} RemoveAllKeepsOthersInOrder(s: string, c: char)
    ensures |s| > 0 ==> RemoveAll(s, c) == RemoveAll([s[0]], c) + RemoveAll(s[1..], c)
    ensures forall i | 0 <= i < |s| && s[i] != c :: s[i] in RemoveAll(s, c)
    ensures |RemoveAll(s, c)| == |s| - multiset(s)[c]
    decreases |s|
  {
    if |s| > 0 {
      assert s == [s[0]] + s[1..];
      RemoveAllDistributes([s[0]], s[1..], c);
      RemoveAllOne(s[0], c);
      RemoveAllKeepsOthersInOrder(s[1..], c);
      RemoveAllCountStep(s, c);
      forall i | 0 <= i < |s| && s[i] != c
        ensures s[i] in RemoveAll(s, c)
      {
        if i > 0 {
          assert s[i] == s[1..][i - 1];
        }
      }
    }
  }

  /** The inductive step of the count: the first character is removed exactly when it is `c`. */
  lemma RemoveAllCountStep(s: string, c: char)
    requires |s| > 0
    requires RemoveAll(s, c) == RemoveAll([s[0]], c) + RemoveAll(s[1..], c)
    requires RemoveAll([s[0]], c) == if s[0] == c then [] else [s[0]]
    requires |RemoveAll(s[1..], c)| == |s[1..]| - multiset(s[1..])[c]
    ensures |RemoveAll(s, c)| == |s| - multiset(s)[c]
  {
    MultisetOfCons(s);
  }

  /** The multiset of a non-empty sequence is its head added to the multiset of its tail. */
  lemma MultisetOfCons<T>(s: seq<T>)
    requires |s| > 0
    ensures multiset(s) == multiset{s[0]} + multiset(s[1..])
  {
    assert s == [s[0]] + s[1..];
  }

  lemma RemoveAllDistributesStep(a: string, b: string, c: char)
    requires |a| > 0
    requires RemoveAll(a[1..] + b, c) == RemoveAll(a[1..], c) + RemoveAll(b, c)
    ensures RemoveAll(a + b, c) == RemoveAll(a, c) + RemoveAll(b, c)
  {
    var h := if a[0] == c then [] else [a[0]];
    TailOfAppend(a, b);
    AppendAssociative(h, RemoveAll(a[1..], c), RemoveAll(b, c));
  }

  lemma TailOfAppend<T>(a: seq<T>, b: seq<T>)
    requires |a| > 0
    ensures (a + b)[0] == a[0] && (a + b)[1..] == a[1..] + b
  {
  }

  lemma AppendAssociative<T>(a: seq<T>, b: seq<T>, c: seq<T>)
    ensures a + (b + c) == (a + b) + c
  {
  }
}
